=== FILE: README.md ===
# dbrpc request dispatch and argument coercion, in Dafny

dbrpc exposes stored database routines over HTTP in three calling
conventions: a query-string GET (and HEAD), a JSON-RPC 2.0 envelope POSTed to
the base path, and a PostgREST-style POST of a JSON object to
`<prefix><method>`. This project models the dispatch layer of `handler.go`
as pure functions over immutable datatypes:

- `Cors` — the origin gate (`originAllowed`).
- `Routing` — dispatch by verb and path (`httpHandler`), method-name
  extraction (prefix trimmed, then one `.json`), the registry lookup
  (`FunctionDef`).
- `Coercion` — the two argument-coercion loops (the query-string loop of
  `getContextHandler`, and `fetchArgs` for JSON bodies), written once as a
  fold `Coerce` over the declared arguments and instantiated with each
  variant's per-value rule; the missing-argument rule `MissingNames`; the
  array encoding `{v1,v2,...}` and its inverse `SplitArray`.
- `Handler` — the three adapters and `Handle`, the whole request pipeline:
  gate, routing, resolution, coercion, dispatch, and the status and reply
  shape of each outcome.
- `HandlerProperties` — the outcome table of each adapter, "missing arguments
  mean no dispatch", and end-to-end examples with an `echo` routine.
- `Model`, `Strings`, `Wrappers` — the records (`ArgDef`, `CallDef`,
  the executor's `DispatchResult`), Go's `strings` helpers, `Option`/`Result`.

The registry, the argument-definition fetch (`FunctionArgDef`), the executor
(`FunctionResult`) and the two JSON body decoders are parameters of the
pipeline, bundled as `Handler.Services`. Besides its status and body, a
`Handler.Response` records the envelope handed to the executor
(`dispatched`), set exactly where an adapter calls `FunctionResult`; "no
dispatch" is `dispatched == None`.

A decoded JSON argument is `Scalar(decoded)` or `Seq(items)` (an array of
strings). `Scalar` is any other value (`null`, a string, a number, a
boolean, an object, or an array with a non-string item) as Go's
`json.Unmarshal` into `interface{}` leaves it: a string by its contents,
and a number as the `float64` it is converted to, so `1.50` arrives as
`1.5`. The envelope stores, per
argument, a Go `*string` (`Str`), a decoded value passed through (`Raw`),
or — only in the as-written model of `fetchArgs` — a `reflect.Value`
(`ReflectHandle`).

The pipeline (`Handler.Handle`, `Handler.RpcOutcomeOf`,
`Handler.PostgrestHandler`) coerces JSON bodies with the corrected
`Coercion.FetchArgs`, not with `Coercion.FetchArgsAsWritten`: where
`handler.go` sends `{}` for a non-array value given to an array argument
(see "## Findings"), the modelled pipeline forwards the value itself.

Three behaviours of `handler.go` to note:
- the PostgREST adapter resolves the method and loads its argument
  definitions before it reads the body, so an unknown method with an empty
  body is 404, not 400;
- in the query path the empty-array literal is recognised by the first value
  alone (`?a={}&a=x` stores `{}` and drops `x`); the JSON path has no such
  special case (`["{}"]` becomes `{{}}`);
- arguments that are absent but defaulted never enter the envelope; the
  routine applies its own default.

## Model

| member | source | states |
|---|---|---|
| Cors.OriginAllowed | handler.go:177-186 | an origin is admitted iff the host list holds `*` or an entry equal to it; an empty list admits nothing |
| Routing.RouteOf | handler.go:140-155 | routing is total: GET is the simple handler with a reply, HEAD without, POST to exactly the prefix is JSON-RPC, any other POST is PostgREST, OPTIONS is the preflight, every other verb is unsupported |
| Routing.MethodName | handler.go:203-204 | under the prefix, the name is the rest of the path less one trailing `.json` if there is one; outside the prefix, the whole path less one trailing `.json` (the URL forms are inverted by `Routing.MethodNameRoundTrip`) |
| Routing.MethodNameRoundTrip | handler.go:203-204 | the method name inverts the URLs a client builds: `prefix + m` (when `m` does not end in `.json`) and `prefix + m + ".json"` both name `m` |
| Routing.MethodNameTrimsOnce | handler.go:354-355 | only one `.json` is trimmed: `m.json.json` names `m.json` |
| Routing.MethodNameOutsidePrefix | handler.go:203-204 | a path not under the prefix is used whole, less at most one `.json` |
| Routing.FunctionDef | handler.go:189-196 | lookup succeeds iff the name is a key of the function map, returning its entry; otherwise the `no method <name>` error |
| Coercion.MissingNamesMembership | handler.go:227-234 | a name is reported missing iff it was not supplied and some definition carrying it has neither a default nor a null default |
| Coercion.MissingNamesAppend | handler.go:227-231 | the missing list follows declaration order: that of a concatenation of definitions is the concatenation of the lists, one entry per definition |
| Coercion.NothingMissing | handler.go:249-251 | the missing list is empty iff every required definition was supplied |
| Coercion.StepKeeps | handler.go:228-246 | one iteration of the loop keeps the envelope's identity, the missing list, the key set and the stored values in step with the definitions seen so far |
| Coercion.Coerce | handler.go:224-247 | the walk yields the routine's nsp and proc, the reference missing list, exactly the supplied declared names as keys, and for each the value its last definition makes |
| Coercion.QueryInput | handler.go:228-229 | a query key counts as supplied iff it has at least one value |
| Coercion.QueryValue | handler.go:235-246 | a scalar takes the first value; an array whose first value is `{}` is stored as `{}`; any other array is stored as the unescaped comma join in braces: it reads back as the given values each cut at its commas, hence as the given values when none holds a comma |
| Coercion.CoerceQuery | handler.go:224-247 | the query loop: nsp and proc are the resolved routine, missing names are the required definitions without values, the envelope holds exactly the supplied declared names with their coerced values |
| Coercion.EncodeArray | handler.go:241 | the `{`, comma-join, `}` encoding always reads back; a non-empty array comes back whole when no value holds a comma; the empty array reads back as one empty value |
| Coercion.ArrayPieces | handler.go:241 | reading back any non-empty encoded array yields its values each cut at every comma, those inside values included |
| Coercion.ArrayEncodingAmbiguous | handler.go:241 | without escaping, `["a,b"]` and `["a","b"]` share the encoding `{a,b}`, and `[]` and `[""]` share `{}` |
| Coercion.JsonValue | handler.go:438-461 | a JSON array for an array argument is stored as the unescaped comma join in braces: the empty array as `{}`, a non-empty one reading back as its items each cut at its commas (its items when none holds a comma); any other value, and every value of a scalar argument, passes through as decoded |
| Coercion.FetchArgs | handler.go:425-466 | the JSON loop, corrected: nsp and proc are the resolved routine, and every supplied declared argument is stored as its last definition's coercion makes it |
| Coercion.FetchArgsKeysAndMissing | handler.go:427-437 | the JSON loop reports exactly the required definitions absent from the object, and its envelope holds exactly the supplied declared names, so absent or defaulted arguments never appear |
| Coercion.JsonValueAsWritten | handler.go:438-461 | as written, a non-array value for an array argument becomes the `reflect.Value` wrapper; every other case agrees with the corrected `Coercion.JsonValue` |
| Coercion.FetchArgsAsWritten | handler.go:438-445 | as written, a non-array value given to an array argument is stored as its `reflect.Value` wrapper |
| Coercion.ScalarForArrayIsLostAsWritten | handler.go:440-444 | as written, `{"ids": 7}` and `{"ids": 8}` for an `int4[]` argument give the same envelope; the corrected loop keeps 7 |
| Coercion.EmptyArrayLiteralByPath | handler.go:237-239 | the query path keeps the literal `{}`, while the JSON path encodes `["{}"]` as `{{}}` |
| Handler.Resolve | handler.go:205-219 | resolution succeeds iff the name is registered and its argument definitions load, giving that entry and those definitions; an unregistered name fails with `no method <name>`, and a failed definition load fails with that load's own error, unchanged |
| Handler.SimpleHandler | handler.go:200-276 | GET/HEAD: 404 iff resolution fails, otherwise 200 with a result envelope (GET) or no body (HEAD); the executor is called iff the method resolves and no required argument is missing, and GET's envelope is the executor's reply to what was dispatched (outcome table in `HandlerProperties.SimpleOutcomes`) |
| Handler.RpcOutcomeOf | handler.go:296-322 | 404 with -32601 `Method not found`, the resolution error as data and nothing dispatched iff resolution fails; otherwise 200, with -32602 and the missing names when nothing is dispatched; the executor is called iff the method resolves and no required argument is missing, and then the outcome is its result or -32603 with its error |
| Handler.RpcHandler | handler.go:281-343 | an undecodable body is 400 plain text with nothing dispatched; otherwise the reply echoes `id` and `jsonrpc`, is 404 iff resolution fails, and dispatches iff the method resolves and no required argument is missing (outcome table in `HandlerProperties.RpcOutcomes`) |
| Handler.PostgrestHandler | handler.go:349-423 | 404 iff resolution fails; the executor is called iff the method resolves, the body is non-empty and decodes, and no required argument is missing; a dispatched call answers 200 with its raw result or 400 with its error; every 200 was dispatched (outcome table in `HandlerProperties.PostgrestOutcomes`) |
| Handler.Handle | handler.go:117-157 | a refused origin is 403 `Origin not registered`; only GET, HEAD and POST past the gate ever dispatch; OPTIONS is 204 with no body; other verbs are 501 with nothing dispatched |
| HandlerProperties.ForbiddenOrigin | handler.go:124-131 | a request whose origin is not admitted gets 403 `Origin not registered` whatever its verb, path or body |
| HandlerProperties.EmptyHostListRefusesOrigins | handler.go:124-131 | with no hosts configured, every request carrying an origin gets 403 |
| HandlerProperties.VerbTable | handler.go:140-155 | past the gate: OPTIONS is 204 with no body, an unsupported verb 501, GET 200 with a result envelope or 404, HEAD 200 with no body or 404, POST to the prefix a JSON-RPC reply or 400, any other POST 200, 400 or 404 |
| HandlerProperties.HeadWritesNothing | handler.go:249-275 | HEAD on a resolvable method answers 200 with no body, but still dispatches the coerced envelope when no required argument is missing |
| HandlerProperties.SimpleOutcomes | handler.go:200-275 | GET and HEAD: unknown method or failed definition load is 404; missing arguments give 200 with `success:false` and `Required parameter(s) [..] not found` and dispatch nothing; otherwise the coerced envelope is dispatched and GET answers 200 with the executor's reply to it |
| HandlerProperties.RpcUndecodable | handler.go:286-294 | a body that does not decode as a JSON-RPC request is 400 `json parse error: ..` before any lookup |
| HandlerProperties.RpcOutcomes | handler.go:296-328 | every JSON-RPC reply echoes `id` and `jsonrpc`; unknown method or failed load is -32601 with 404 and the resolution error (`no method <name>` or the load's own error) as data; missing arguments -32602 with 200 and the names, nothing dispatched; otherwise the `fetchArgs` envelope is dispatched, and a failed call is -32603 with 200, a successful one 200 with the result |
| HandlerProperties.PostgrestOutcomes | handler.go:354-409 | PostgREST: unknown method or failed load is 404 regardless of body; empty body 400 with the use-`{}` message; undecodable body 400 `Cannot parse request payload` with `json parse error: <decoder error>` as details; missing arguments 400 with code 42883 and the names joined by `, `; none of these dispatch; otherwise the `fetchArgs` envelope is dispatched, and a failed call is 400, a successful one 200 with the raw result |
| HandlerProperties.MissingMeansNoDispatch | handler.go:249-255 | no adapter calls the executor when the method is unknown or its definitions fail to load, when a required argument is missing, or (JSON bodies) when the body is empty or does not decode |
| HandlerProperties.CompleteMeansDispatch | handler.go:249-255 | once the method resolves and nothing required is missing, each adapter, HEAD included, dispatches exactly the envelope its coercion loop built |
| HandlerProperties.UndispatchedIgnoresExecutor | handler.go:117-157 | a request that dispatches nothing gets the same response whatever the executor would reply |
| HandlerProperties.EchoOverGet | handler.go:224-271 | `GET P/echo?msg=hi` dispatches `echo` with exactly `msg` = `hi` and answers 200 with `success:true` and result `hi` |
| Handler.MissingMessage | handler.go:250 | the missing-argument text is `Required parameter(s) [`, the names, `] not found`; the names read back from between the brackets, split at spaces, when none holds a space |
| HandlerProperties.MsgMissingMessage | handler.go:250 | the missing-argument text for `msg` is `Required parameter(s) [msg] not found` (Go prints a string slice between brackets, space-separated) |
| HandlerProperties.EchoMissingOverGet | handler.go:249-271 | `GET P/echo.json` without `msg` dispatches nothing and answers 200 with `success:false` and `Required parameter(s) [msg] not found` |
| HandlerProperties.EchoEmptyBodyOverPostgrest | handler.go:376-380 | `POST P/echo` with an empty body dispatches nothing and answers 400 with `Cannot parse empty request payload, use '{}'` |
| HandlerProperties.EchoOverRpc | handler.go:296-322 | a JSON-RPC call of `echo` with id 7 and `msg` = `hi` dispatches exactly that argument and answers 200 with id 7, version 2.0 and result `hi` |

## Left out

- `FunctionArgDef` and `FunctionResult` (handler.go:73-113) are the blocking channel hand-off to the executor pool; they are the `argDefs` and `exec` parameters of `Services`, returning a definition list or error and a `DispatchResult`. The introspection payload `[null, ArgDefFunc, nsp, proc]` is not built.
- JSON encoding and decoding, `getRaw`, and the indented or compact output (`Config.compact` is carried but unused): request bodies are decoded by the `decodeRpc` and `decodeObject` parameters, and replies are abstract `Body` values. The branches taken when `json.Marshal` fails (handler.go:264-268, 330-337, 411-417) are therefore not modelled.
- HandlerProperties.RpcOutcomes: the `data` of a -32601 reply for an unregistered method is stated as the text `no method <name>`, whereas on the wire `getRaw(err)` (handler.go:301) marshals the `*errors.errorString` from `FunctionDef` and sends `{}`, since that type has no exported fields; the model keeps the error's text because JSON serialisation is left out (above). The same holds for the argument-definition error at handler.go:308 whenever the executor reports a Go error value.
- What the executor does with a dispatched envelope (the database call and its effects) is outside the model; a response records which envelope was dispatched and the executor's reply to it.
- HTTP plumbing: the `ResponseWriter`, `setMetric`, the `Content-Type` and `X-Elapsed` headers (handler.go:161-165), the CORS response headers (handler.go:132-136), `r.ParseForm` (the parsed query is the request's `query` field) and all logging.
- `getFloat` (handler.go:468-480) is floating point with `math.NaN`, and `getBool` (handler.go:482-495) wraps `strconv.ParseBool`; neither is used by the dispatch path.
- Number precision: Go's decoder turns every JSON number into a `float64` (handler.go:288 and 383 decode without `UseNumber`), so an integer above 2^53 such as 9007199254740993 reaches the routine as 9007199254740992, and `1e400` fails to decode. The model receives values already decoded from the `decodeRpc` and `decodeObject` parameters, which must reproduce this conversion; no arithmetic on numbers is modelled.
- An array with a non-string item is `Scalar(decoded)`: for a scalar argument it passes through as handler.go:461 does, but for an array argument handler.go:450 panics on the `.(string)` assertion, and that panic is outside the model, which passes the value through.
- The JSON-RPC `id` is a `uint64`; an out-of-range id is a decoding failure, which belongs to the decoder parameter.

## Findings

| source | as written | input that shows it | evidently intended | confidence | as-written member | corrected member |
|---|---|---|---|---|---|---|
| handler.go:441-444 | a non-array value given to an array-typed argument is stored as `s`, the `reflect.Value` wrapping it; `reflect.Value` has no exported fields, so the envelope carries `{}` for it | `POST P/sum` with body `{"ids": 7}` for a routine whose `ids` is `int4[]`: the envelope holds `"ids": {}`, and `{"ids": 8}` gives the same envelope | store the value itself, as the comment `string or {string}` and the commented-out `&vs` indicate | medium, not executed | Coercion.FetchArgsAsWritten (shown by Coercion.ScalarForArrayIsLostAsWritten) | Coercion.FetchArgs |

=== FILE: coercion.dfy ===
/** Argument coercion: the query-string loop of `getContextHandler` and
    `fetchArgs` for JSON bodies. Both walk the declared arguments in order,
    build the call envelope and collect the names of missing required
    arguments; they differ only in how one supplied value is coerced, so the
    walk is defined once (`Coerce`) and instantiated twice. */
module Coercion {
  import opened Wrappers
  import opened Strings
  import opened Model

  // ---------------------------------------------------------------------------
  // The missing-argument rule

  /** The reference definition of the missing list: the name of every required
      definition whose name was not supplied, once per definition, in
      declaration order. */
  function MissingNames(defs: seq<ArgDef>, supplied: set<string>): seq<string>
  {
    if |defs| == 0 then []
    else
      var here := if defs[0].name !in supplied && Required(defs[0]) then [defs[0].name] else [];
      here + MissingNames(defs[1..], supplied)
  }

  /** The missing list of a concatenation is the concatenation of the missing
      lists: the order of the definitions is kept. */
  lemma {:induction false} MissingNamesAppend(xs: seq<ArgDef>, ys: seq<ArgDef>, supplied: set<string>)
    ensures MissingNames(xs + ys, supplied) == MissingNames(xs, supplied) + MissingNames(ys, supplied)
    decreases |xs|
  {
    if |xs| == 0 {
      assert xs + ys == ys;
    } else {
      assert (xs + ys)[0] == xs[0];
      assert (xs + ys)[1..] == xs[1..] + ys;
      MissingNamesAppend(xs[1..], ys, supplied);
    }
  }

  /** A name is reported missing iff some required definition carries it and
      it was not supplied. */
  lemma {:induction false} MissingNamesMembership(defs: seq<ArgDef>, supplied: set<string>, x: string)
    ensures x in MissingNames(defs, supplied) <==>
            x !in supplied && exists i :: 0 <= i < |defs| && defs[i].name == x && Required(defs[i])
    decreases |defs|
  {
    if |defs| > 0 {
      MissingNamesMembership(defs[1..], supplied, x);
      if x in MissingNames(defs[1..], supplied) {
        var i :| 0 <= i < |defs[1..]| && defs[1..][i].name == x && Required(defs[1..][i]);
        assert defs[i + 1] == defs[1..][i];
      }
      if x !in supplied && exists i :: 0 <= i < |defs| && defs[i].name == x && Required(defs[i]) {
        var i :| 0 <= i < |defs| && defs[i].name == x && Required(defs[i]);
        if i > 0 {
          assert defs[1..][i - 1] == defs[i];
        }
      }
    }
  }

  /** Nothing is missing iff every required definition was supplied. */
  lemma NothingMissing(defs: seq<ArgDef>, supplied: set<string>)
    ensures MissingNames(defs, supplied) == [] <==>
            forall i :: 0 <= i < |defs| && Required(defs[i]) ==> defs[i].name in supplied
  {
    var m := MissingNames(defs, supplied);
    if m != [] {
      MissingNamesMembership(defs, supplied, m[0]);
    } else {
      forall i | 0 <= i < |defs| && Required(defs[i])
        ensures defs[i].name in supplied
      {
        MissingNamesMembership(defs, supplied, defs[i].name);
      }
    }
  }

  // ---------------------------------------------------------------------------
  // The walk over the definitions

  /** Some definition carries the name `k`. */
  predicate Declared(defs: seq<ArgDef>, k: string) {
    exists i :: 0 <= i < |defs| && defs[i].name == k
  }

  /** Definition `i` is the last one carrying its name; a later definition
      with the same name would overwrite its entry in the envelope. */
  predicate LastOf(defs: seq<ArgDef>, i: int)
    requires 0 <= i < |defs|
  {
    forall j :: i < j < |defs| ==> defs[j].name != defs[i].name
  }

  /** The envelope built so far and the names found missing. */
  datatype Coerced = Coerced(call: CallDef, missing: seq<string>)

  /** One iteration of the loop: handle the definition `a`. */
  function Step<V>(prev: Coerced, a: ArgDef, input: map<string, V>, value: (ArgDef, V) -> ArgValue): Coerced
  {
    if a.name in input then
      Coerced(prev.call.(arg := prev.call.arg[a.name := value(a, input[a.name])]), prev.missing)
    else if Required(a) then
      Coerced(prev.call, prev.missing + [a.name])
    else
      prev
  }

  lemma StepKeepsMissing<V>(init: seq<ArgDef>, a: ArgDef, input: map<string, V>, value: (ArgDef, V) -> ArgValue, prev: Coerced)
    requires prev.missing == MissingNames(init, input.Keys)
    ensures Step(prev, a, input, value).missing == MissingNames(init + [a], input.Keys)
  {
    MissingNamesAppend(init, [a], input.Keys);
  }

  lemma StepKeepsKeys<V>(init: seq<ArgDef>, a: ArgDef, input: map<string, V>, value: (ArgDef, V) -> ArgValue, prev: Coerced)
    requires forall k :: k in prev.call.arg <==> k in input && Declared(init, k)
    ensures forall k :: k in Step(prev, a, input, value).call.arg <==> k in input && Declared(init + [a], k)
  {
    var defs := init + [a];
    forall k
      ensures Declared(defs, k) <==> Declared(init, k) || k == a.name
    {
      if Declared(init, k) {
        var i :| 0 <= i < |init| && init[i].name == k;
        assert defs[i] == init[i];
      }
      if Declared(defs, k) && k != a.name {
        var i :| 0 <= i < |defs| && defs[i].name == k;
        assert i < |init| && init[i] == defs[i];
      }
      if k == a.name {
        assert defs[|init|] == a;
      }
    }
  }

  lemma StepKeepsValues<V>(init: seq<ArgDef>, a: ArgDef, input: map<string, V>, value: (ArgDef, V) -> ArgValue, prev: Coerced)
    requires forall k :: k in prev.call.arg <==> k in input && Declared(init, k)
    requires forall i :: 0 <= i < |init| && LastOf(init, i) && init[i].name in input ==>
               init[i].name in prev.call.arg && prev.call.arg[init[i].name] == value(init[i], input[init[i].name])
    ensures var defs := init + [a];
            var r := Step(prev, a, input, value);
            forall i :: 0 <= i < |defs| && LastOf(defs, i) && defs[i].name in input ==>
              defs[i].name in r.call.arg && r.call.arg[defs[i].name] == value(defs[i], input[defs[i].name])
  {
    var defs := init + [a];
    var r := Step(prev, a, input, value);
    forall i | 0 <= i < |defs| && LastOf(defs, i) && defs[i].name in input
      ensures defs[i].name in r.call.arg && r.call.arg[defs[i].name] == value(defs[i], input[defs[i].name])
    {
      if i < |init| {
        assert defs[i] == init[i];
        assert defs[|init|] == a;
        assert a.name != init[i].name;
        assert LastOf(init, i) by {
          forall j | i < j < |init|
            ensures init[j].name != init[i].name
          {
            assert defs[j] == init[j];
          }
        }
      }
    }
  }

  /** One iteration keeps what the walk promises: the routine's identity,
      the missing list, exactly the supplied declared names, and for each
      name the value its last definition makes. */
  lemma StepKeeps<V>(defs: seq<ArgDef>, input: map<string, V>, value: (ArgDef, V) -> ArgValue, fd: FuncDef, prev: Coerced)
    requires |defs| > 0
    requires var init := defs[..|defs| - 1];
             && prev.call.nsp == fd.nsp && prev.call.proc == fd.proc
             && prev.missing == MissingNames(init, input.Keys)
             && (forall k :: k in prev.call.arg <==> k in input && Declared(init, k))
             && (forall i :: 0 <= i < |init| && LastOf(init, i) && init[i].name in input ==>
                   init[i].name in prev.call.arg && prev.call.arg[init[i].name] == value(init[i], input[init[i].name]))
    ensures var r := Step(prev, defs[|defs| - 1], input, value);
            && r.call.nsp == fd.nsp && r.call.proc == fd.proc
            && r.missing == MissingNames(defs, input.Keys)
            && (forall k :: k in r.call.arg <==> k in input && Declared(defs, k))
            && (forall i :: 0 <= i < |defs| && LastOf(defs, i) && defs[i].name in input ==>
                  defs[i].name in r.call.arg && r.call.arg[defs[i].name] == value(defs[i], input[defs[i].name]))
  {
    var init := defs[..|defs| - 1];
    var a := defs[|defs| - 1];
    assert defs == init + [a];
    StepKeepsMissing(init, a, input, value, prev);
    StepKeepsKeys(init, a, input, value, prev);
    StepKeepsValues(init, a, input, value, prev);
  }

  /** The loop shared by both variants, over the definitions in declaration
      order. A name absent from `input` is reported when required and
      otherwise skipped (the routine applies its own default); a present
      name is stored as `value` makes it. */
  function Coerce<V>(defs: seq<ArgDef>, input: map<string, V>, value: (ArgDef, V) -> ArgValue, fd: FuncDef): (r: Coerced)
    ensures r.call.nsp == fd.nsp && r.call.proc == fd.proc
    ensures r.missing == MissingNames(defs, input.Keys)
    ensures forall k :: k in r.call.arg <==> k in input && Declared(defs, k)
    ensures forall i :: 0 <= i < |defs| && LastOf(defs, i) && defs[i].name in input ==>
              defs[i].name in r.call.arg && r.call.arg[defs[i].name] == value(defs[i], input[defs[i].name])
    decreases |defs|
  {
    if |defs| == 0 then
      Coerced(CallDef(fd.nsp, fd.proc, map[]), [])
    else
      var prev := Coerce(defs[..|defs| - 1], input, value, fd);
      StepKeeps(defs, input, value, fd, prev);
      Step(prev, defs[|defs| - 1], input, value)
  }

  // ---------------------------------------------------------------------------
  // The array encoding

  const Separator: char := ','

  /** An array argument as the string `{v1,v2,...}`; the separator inside a
      value is not escaped. It always reads back; a non-empty array whose
      values hold no separator comes back whole, while the empty array reads
      as one empty value (`ArrayPieces` says what any other array reads as). */
  function EncodeArray(items: seq<string>): (r: string)
    ensures SplitArray(r).Some?
    ensures |items| == 0 ==> SplitArray(r) == Some([""])
    ensures |items| > 0 && SeparatorFree(items) ==> SplitArray(r) == Some(items)
  {
    var r := "{" + Join(items, [Separator]) + "}";
    assert r[0] == '{' && r[|r| - 1] == '}' && r[1..|r| - 1] == Join(items, [Separator]);
    if |items| > 0 && SeparatorFree(items) then
      SplitJoin(items, Separator);
      r
    else r
  }

  predicate SeparatorFree(items: seq<string>) {
    forall i :: 0 <= i < |items| ==> Separator !in items[i]
  }

  /** Reads back an encoded array: strips the braces and cuts at separators. */
  function SplitArray(s: string): Option<seq<string>>
  {
    if 2 <= |s| && s[0] == '{' && s[|s| - 1] == '}' then Some(Split(s[1..|s| - 1], Separator))
    else None
  }

  /** Reading back any non-empty encoded array yields the values cut at
      every separator, those inside values included. */
  lemma {:induction false} ArrayPieces(items: seq<string>)
    requires |items| > 0
    ensures SplitArray(EncodeArray(items)) == Some(SplitAll(items, Separator))
  {
    var s := EncodeArray(items);
    assert s[1..|s| - 1] == Join(items, [Separator]);
    SplitJoinAll(items, Separator);
  }

  /** Without escaping, different arrays can share one encoding: a value
      holding a comma reads as two values, and the empty array reads as one
      empty value. */
  lemma ArrayEncodingAmbiguous()
    ensures EncodeArray(["a,b"]) == EncodeArray(["a", "b"]) == "{a,b}"
    ensures EncodeArray([]) == EncodeArray([""]) == "{}"
  {
    assert Join(["a", "b"], [Separator]) == "a,b" by {
      assert ["a", "b"][1..] == ["b"];
    }
    assert Join([], [Separator]) == "" && Join([""], [Separator]) == "";
  }

  // ---------------------------------------------------------------------------
  // The query-string variant

  /** The values of one query key that counts as supplied. */
  type Values = v: seq<string> | |v| > 0 witness [""]

  /** The literal a caller sends for an empty array. */
  const EmptyArray: string := "{}"

  /** The query keys that count as supplied: a key with no values is
      treated as absent, like a key that is not there. */
  function QueryInput(form: map<string, seq<string>>): (m: map<string, Values>)
    ensures forall k :: k in m <==> k in form && |form[k]| > 0
    ensures forall k :: k in m ==> m[k] == form[k]
  {
    map k | k in form && |form[k]| > 0 :: form[k]
  }

  /** One supplied query value list, coerced. An array argument whose first
      value is the empty-array literal is stored as that literal, the other
      values dropped; any other array is stored encoded; a scalar takes the
      first value. */
  function QueryValue(a: ArgDef, v: Values): (r: ArgValue)
    ensures !IsArray(a) ==> r == Str(v[0])
    ensures IsArray(a) && v[0] == EmptyArray ==> r == Str(EmptyArray)
    ensures IsArray(a) && v[0] != EmptyArray ==> r.Str? && SplitArray(r.s) == Some(SplitAll(v, Separator))
    ensures IsArray(a) && v[0] != EmptyArray && SeparatorFree(v) ==> SplitArray(r.s) == Some(v)
  {
    if IsArray(a) then
      if v[0] == EmptyArray then Str(v[0])
      else
        ArrayPieces(v);
        Str(EncodeArray(v))
    else Str(v[0])
  }

  /** The names a query string supplies: keys with at least one value. */
  function QuerySupplied(form: map<string, seq<string>>): set<string>
  {
    QueryInput(form).Keys
  }

  /** The query-string loop of `getContextHandler`. */
  function CoerceQuery(defs: seq<ArgDef>, form: map<string, seq<string>>, fd: FuncDef): (r: Coerced)
    ensures r.call.nsp == fd.nsp && r.call.proc == fd.proc
    ensures r.missing == MissingNames(defs, QuerySupplied(form))
    ensures forall k :: k in r.call.arg <==> k in form && |form[k]| > 0 && Declared(defs, k)
    ensures forall i :: 0 <= i < |defs| && LastOf(defs, i) && defs[i].name in form && |form[defs[i].name]| > 0 ==>
              defs[i].name in r.call.arg && r.call.arg[defs[i].name] == QueryValue(defs[i], form[defs[i].name])
  {
    var input := QueryInput(form);
    Coerce(defs, input, QueryValue, fd)
  }

  // ---------------------------------------------------------------------------
  // The JSON variant

  /** One supplied JSON value, coerced. An array argument given an array is
      stored encoded (no empty-array special case here); given anything else
      it is passed through unchanged, as is every value of a scalar
      argument. */
  function JsonValue(a: ArgDef, v: Json): (r: ArgValue)
    ensures !IsArray(a) || v.Scalar? ==> r == Raw(v)
    ensures IsArray(a) && v.Seq? ==> r.Str? && SplitArray(r.s).Some?
    ensures IsArray(a) && v == Seq([]) ==> r == Str(EmptyArray)
    ensures IsArray(a) && v.Seq? && |v.items| > 0 ==> SplitArray(r.s) == Some(SplitAll(v.items, Separator))
    ensures IsArray(a) && v.Seq? && |v.items| > 0 && SeparatorFree(v.items) ==> SplitArray(r.s) == Some(v.items)
  {
    if IsArray(a) then
      match v
      case Seq(items) =>
        if |items| > 0 then
          ArrayPieces(items);
          Str(EncodeArray(items))
        else Str(EncodeArray(items))
      case Scalar(_) => Raw(v)
    else Raw(v)
  }

  /** `fetchArgs`, with the pass-through of a non-array value for an
      array argument as evidently intended. The envelope names the resolved
      routine and stores each supplied declared argument as `JsonValue`
      makes it; `FetchArgsKeysAndMissing` states the rest. */
  function FetchArgs(defs: seq<ArgDef>, params: map<string, Json>, fd: FuncDef): (r: Coerced)
    ensures r.call.nsp == fd.nsp && r.call.proc == fd.proc
    ensures forall i :: 0 <= i < |defs| && LastOf(defs, i) && defs[i].name in params ==>
              defs[i].name in r.call.arg && r.call.arg[defs[i].name] == JsonValue(defs[i], params[defs[i].name])
  {
    Coerce(defs, params, JsonValue, fd)
  }

  /** The JSON loop reports exactly the required definitions absent from the
      object, and its envelope holds exactly the supplied declared names:
      absent or defaulted arguments never appear. */
  lemma FetchArgsKeysAndMissing(defs: seq<ArgDef>, params: map<string, Json>, fd: FuncDef)
    ensures FetchArgs(defs, params, fd).missing == MissingNames(defs, params.Keys)
    ensures forall k :: k in FetchArgs(defs, params, fd).call.arg <==> k in params && Declared(defs, k)
  {
  }

  /** `fetchArgs` as written: a non-array value for an array argument is
      stored as the `reflect.Value` wrapping it rather than the value. */
  function JsonValueAsWritten(a: ArgDef, v: Json): (r: ArgValue)
    ensures IsArray(a) && v.Scalar? ==> r == ReflectHandle
    ensures !(IsArray(a) && v.Scalar?) ==> r == JsonValue(a, v)
  {
    if IsArray(a) then
      match v
      case Seq(items) => Str(EncodeArray(items))
      case Scalar(_) => ReflectHandle
    else Raw(v)
  }

  function FetchArgsAsWritten(defs: seq<ArgDef>, params: map<string, Json>, fd: FuncDef): (r: Coerced)
    ensures forall i :: (0 <= i < |defs| && LastOf(defs, i) && defs[i].name in params
              && IsArray(defs[i]) && params[defs[i].name].Scalar?) ==>
              defs[i].name in r.call.arg && r.call.arg[defs[i].name] == ReflectHandle
  {
    Coerce(defs, params, JsonValueAsWritten, fd)
  }

  /** As written, `{"ids": 7}` and `{"ids": 8}` for an `int4[]` argument
      yield the same envelope: the value never reaches the routine. The
      corrected `FetchArgs` keeps it. */
  lemma ScalarForArrayIsLostAsWritten()
    ensures var defs := [ArgDef(1, "ids", "int4[]", None, false)];
            var fd := FuncDef("public", "sum");
            && FetchArgsAsWritten(defs, map["ids" := Scalar("7")], fd)
               == FetchArgsAsWritten(defs, map["ids" := Scalar("8")], fd)
            && FetchArgs(defs, map["ids" := Scalar("7")], fd).call.arg["ids"] == Raw(Scalar("7"))
            && FetchArgs(defs, map["ids" := Scalar("7")], fd) != FetchArgs(defs, map["ids" := Scalar("8")], fd)
  {
    var defs := [ArgDef(1, "ids", "int4[]", None, false)];
    var fd := FuncDef("public", "sum");
    assert IsArray(defs[0]) by {
      assert "int4[]"[|"int4[]"| - 2..] == "[]";
    }
    assert LastOf(defs, 0);
    var w7 := FetchArgsAsWritten(defs, map["ids" := Scalar("7")], fd);
    var w8 := FetchArgsAsWritten(defs, map["ids" := Scalar("8")], fd);
    assert w7.call.arg.Keys == w8.call.arg.Keys == {"ids"} by {
      assert Declared(defs, "ids");
    }
    assert w7.call.arg == w8.call.arg;
    assert FetchArgs(defs, map["ids" := Scalar("8")], fd).call.arg["ids"] == Raw(Scalar("8"));
  }

  /** The two variants disagree on the empty-array literal: the query path
      keeps `{}` while the JSON path wraps it again. */
  lemma EmptyArrayLiteralByPath(a: ArgDef)
    requires IsArray(a)
    ensures QueryValue(a, [EmptyArray]) == Str("{}")
    ensures JsonValue(a, Seq([EmptyArray])) == Str("{{}}")
  {
  }
}

=== FILE: cors.dfy ===
/** The origin gate: a request that names an `Origin` is served only when
    the configured host list admits it (handler.go `originAllowed`). */
module Cors {

  /** The wildcard entry that admits every origin. */
  const Wildcard: string := "*"

  /** Scans the host list in order and stops at the first entry that is the
      wildcard or equals the origin. */
  function OriginAllowed(origins: seq<string>, origin: string): (r: bool)
    ensures r <==> (Wildcard in origins || origin in origins)
    ensures |origins| == 0 ==> !r
  {
    if |origins| == 0 then false
    else if origins[0] == Wildcard || origin == origins[0] then true
    else OriginAllowed(origins[1..], origin)
  }
}

=== FILE: handler.dfy ===
/** The request pipeline of `httpHandler`: the origin gate, routing, and the
    three adapters (query-string, JSON-RPC 2.0, PostgREST) with the response
    each produces. The registry, the argument-definition fetch, the executor
    and JSON body decoding are supplied as `Services`; a response is its
    status, an abstract body (serialisation being out of scope) and the
    envelope handed to the executor, if any. */
module Handler {
  import opened Wrappers
  import opened Strings
  import opened Model
  import Cors
  import opened Routing
  import opened Coercion

  const StatusOK := 200
  const StatusNoContent := 204
  const StatusBadRequest := 400
  const StatusForbidden := 403
  const StatusNotFound := 404
  const StatusNotImplemented := 501

  /** JSON-RPC 2.0 error codes used by the RPC adapter. */
  const MethodNotFound := -32601
  const InvalidParams := -32602
  const InternalError := -32603

  /** PostgreSQL's `undefined_function` code, reported for missing arguments. */
  const UndefinedFunction := "42883"

  type uint64 = x: int | 0 <= x < 0x1_0000_0000_0000_0000

  datatype Config = Config(prefix: string, hosts: seq<string>, compact: bool)

  /** An inbound request; `origin` is "" when the header is absent and
      `query` holds the parsed query string. */
  datatype Request = Request(
    verb: string,
    path: string,
    origin: string,
    query: map<string, seq<string>>,
    body: string)

  /** A decoded JSON-RPC request (`serverRequest`). */
  datatype RpcCall = RpcCall(methodName: string, version: string, id: uint64, params: map<string, Json>)

  /** The collaborators: the registry, the argument-definition fetch
      (`FunctionArgDef`), the executor (`FunctionResult`) and the two body
      decoders. */
  datatype Services = Services(
    funcs: map<string, FuncDef>,
    argDefs: FuncDef -> Result<seq<ArgDef>, string>,
    exec: CallDef -> DispatchResult,
    decodeRpc: string -> Result<RpcCall, string>,
    decodeObject: string -> Result<map<string, Json>, string>)

  /** The `data`/`details` member of an error reply. */
  datatype Detail = NoDetail | Text(text: string) | Names(names: seq<string>)

  datatype RpcOutcome =
    | RpcResult(result: Option<string>)
    | RpcError(code: int, message: string, data: Detail)

  datatype Body =
    | NoBody
    | PlainText(text: string)
    | Envelope(result: DispatchResult)
    | Rpc(id: uint64, version: string, outcome: RpcOutcome)
    | PgError(message: string, code: string, details: Detail)
    | RawResult(raw: Option<string>)

  /** What a request produces: the status and body written back, and the
      envelope passed to `FunctionResult` when the executor was called
      (`None` when it was not). */
  datatype Response = Response(status: int, body: Body, dispatched: Option<CallDef>)

  /** `http.Error`: the message and a newline as plain text. */
  function HttpError(message: string, status: int): Response
  {
    Response(status, PlainText(message + "\n"), None)
  }

  /** `http.NotFound`. */
  const NotFoundPage: Response := HttpError("404 page not found", StatusNotFound)

  const EmptyPayloadMessage := "Cannot parse empty request payload, use '{}'"

  const MissingHead := "Required parameter(s) ["
  const MissingTail := "] not found"

  /** `fmt.Sprintf("Required parameter(s) %+v not found", names)`: Go prints
      a string slice as its elements between brackets, space-separated, so
      the names read back from between the brackets when none holds a
      space. */
  function MissingMessage(names: seq<string>): (r: string)
    ensures HasPrefix(r, MissingHead) && |r| >= |MissingHead| + |MissingTail|
    ensures HasSuffix(r, MissingTail)
    ensures |names| > 0 && (forall i :: 0 <= i < |names| ==> ' ' !in names[i]) ==>
              Split(r[|MissingHead|..|r| - |MissingTail|], ' ') == names
  {
    var middle := Join(names, " ");
    var r := MissingHead + middle + MissingTail;
    assert r[..|MissingHead|] == MissingHead;
    assert r[|r| - |MissingTail|..] == MissingTail;
    assert r[|MissingHead|..|r| - |MissingTail|] == middle;
    if |names| > 0 && (forall i :: 0 <= i < |names| ==> ' ' !in names[i]) then
      SplitJoin(names, ' ');
      r
    else r
  }

  /** `FunctionDef` followed by `FunctionArgDef`: the routine and its
      argument definitions, or the error of the first step that failed. */
  function Resolve(svc: Services, name: string): (r: Result<(FuncDef, seq<ArgDef>), string>)
    ensures r.Success? <==> name in svc.funcs && svc.argDefs(svc.funcs[name]).Success?
    ensures r.Success? ==> r.value == (svc.funcs[name], svc.argDefs(svc.funcs[name]).value)
    ensures name !in svc.funcs ==> r == Failure("no method " + name)
    ensures name in svc.funcs && svc.argDefs(svc.funcs[name]).Failure? ==>
              r == Failure(svc.argDefs(svc.funcs[name]).error)
  {
    match FunctionDef(svc.funcs, name)
    case Failure(e) => Failure(e)
    case Success(fd) =>
      match svc.argDefs(fd)
      case Failure(e) => Failure(e)
      case Success(defs) => Success((fd, defs))
  }

  // ---------------------------------------------------------------------------
  // The adapters

  /** `getContextHandler`: GET (`reply`) and HEAD. Missing arguments become a
      failed result in place of the executor's; the status is 200 either
      way, and HEAD writes no body. */
  function SimpleHandler(cfg: Config, req: Request, svc: Services, reply: bool): (r: Response)
    ensures r.status == StatusNotFound <==> Resolve(svc, MethodName(req.path, cfg.prefix)).Failure?
    ensures r.status != StatusNotFound ==> r.status == StatusOK && (if reply then r.body.Envelope? else r.body == NoBody)
    ensures r.dispatched.Some? <==>
              && Resolve(svc, MethodName(req.path, cfg.prefix)).Success?
              && MissingNames(Resolve(svc, MethodName(req.path, cfg.prefix)).value.1, QuerySupplied(req.query)) == []
    ensures r.dispatched.Some? && reply ==> r.body == Envelope(svc.exec(r.dispatched.value))
  {
    match Resolve(svc, MethodName(req.path, cfg.prefix))
    case Failure(_) => NotFoundPage
    case Success((fd, defs)) =>
      var c := CoerceQuery(defs, req.query, fd);
      var (result, sent) :=
        if |c.missing| > 0 then (DispatchResult(false, None, MissingMessage(c.missing)), None)
        else (svc.exec(c.call), Some(c.call));
      if reply then Response(StatusOK, Envelope(result), sent)
      else Response(StatusOK, NoBody, sent)
  }

  /** The status, the `result`/`error` member of a JSON-RPC reply, and the
      envelope dispatched for it. */
  function RpcOutcomeOf(svc: Services, call: RpcCall): (r: (int, RpcOutcome, Option<CallDef>))
    ensures r.0 == StatusNotFound <==> Resolve(svc, call.methodName).Failure?
    ensures r.0 == StatusNotFound ==>
              r.1 == RpcError(MethodNotFound, "Method not found", Text(Resolve(svc, call.methodName).error)) && r.2 == None
    ensures r.2.Some? <==>
              && Resolve(svc, call.methodName).Success?
              && MissingNames(Resolve(svc, call.methodName).value.1, call.params.Keys) == []
    ensures r.2.Some? ==>
              var res := svc.exec(r.2.value);
              r.1 == if res.success then RpcResult(res.result) else RpcError(InternalError, "Internal Error", Text(res.error))
    ensures r.0 != StatusNotFound && r.2.None? ==>
              && r.0 == StatusOK
              && r.1 == RpcError(InvalidParams, "Required parameter(s) not found",
                                 Names(MissingNames(Resolve(svc, call.methodName).value.1, call.params.Keys)))
  {
    match Resolve(svc, call.methodName)
    case Failure(e) => (StatusNotFound, RpcError(MethodNotFound, "Method not found", Text(e)), None)
    case Success((fd, defs)) =>
      var c := FetchArgs(defs, call.params, fd);
      FetchArgsKeysAndMissing(defs, call.params, fd);
      if |c.missing| > 0 then
        (StatusOK, RpcError(InvalidParams, "Required parameter(s) not found", Names(c.missing)), None)
      else
        var res := svc.exec(c.call);
        if res.success then (StatusOK, RpcResult(res.result), Some(c.call))
        else (StatusOK, RpcError(InternalError, "Internal Error", Text(res.error)), Some(c.call))
  }

  /** `postContextHandler`: an undecodable body is a 400 before any lookup;
      otherwise the reply echoes the request's `id` and `jsonrpc`. */
  function RpcHandler(req: Request, svc: Services): (r: Response)
    ensures svc.decodeRpc(req.body).Failure? ==> r.status == StatusBadRequest && r.body.PlainText? && r.dispatched == None
    ensures svc.decodeRpc(req.body).Success? ==>
              var call := svc.decodeRpc(req.body).value;
              && r.body.Rpc? && r.body.id == call.id && r.body.version == call.version
              && (r.status == StatusNotFound <==> Resolve(svc, call.methodName).Failure?)
              && (r.dispatched.Some? <==>
                    Resolve(svc, call.methodName).Success?
                    && MissingNames(Resolve(svc, call.methodName).value.1, call.params.Keys) == [])
  {
    match svc.decodeRpc(req.body)
    case Failure(e) => HttpError("json parse error: " + e, StatusBadRequest)
    case Success(call) =>
      var (status, outcome, sent) := RpcOutcomeOf(svc, call);
      Response(status, Rpc(call.id, call.version, outcome), sent)
  }

  /** `postgrestContextHandler`: the method is resolved before the body is
      read; an empty or undecodable body, missing arguments and a failed
      call are all 400. */
  function PostgrestHandler(cfg: Config, req: Request, svc: Services): (r: Response)
    ensures r.status == StatusNotFound <==> Resolve(svc, MethodName(req.path, cfg.prefix)).Failure?
    ensures r.dispatched.Some? <==>
              && Resolve(svc, MethodName(req.path, cfg.prefix)).Success?
              && req.body != ""
              && svc.decodeObject(req.body).Success?
              && MissingNames(Resolve(svc, MethodName(req.path, cfg.prefix)).value.1, svc.decodeObject(req.body).value.Keys) == []
    ensures r.dispatched.Some? ==>
              var res := svc.exec(r.dispatched.value);
              r == if res.success then Response(StatusOK, RawResult(res.result), r.dispatched)
                   else Response(StatusBadRequest, PgError("Method call error", "", Text(res.error)), r.dispatched)
    ensures r.status == StatusOK ==> r.dispatched.Some?
  {
    match Resolve(svc, MethodName(req.path, cfg.prefix))
    case Failure(_) => NotFoundPage
    case Success((fd, defs)) =>
      if |req.body| == 0 then
        Response(StatusBadRequest, PgError(EmptyPayloadMessage, "", NoDetail), None)
      else
        match svc.decodeObject(req.body)
        case Failure(e) =>
          Response(StatusBadRequest, PgError("Cannot parse request payload", "", Text("json parse error: " + e)), None)
        case Success(params) =>
          var c := FetchArgs(defs, params, fd);
          FetchArgsKeysAndMissing(defs, params, fd);
          if |c.missing| > 0 then
            Response(StatusBadRequest, PgError("Required parameter(s) not found", UndefinedFunction, Text(Join(c.missing, ", "))), None)
          else
            var res := svc.exec(c.call);
            if res.success then Response(StatusOK, RawResult(res.result), Some(c.call))
            else Response(StatusBadRequest, PgError("Method call error", "", Text(res.error)), Some(c.call))
  }

  /** The origin gate applies to a request that carries an origin. */
  predicate GatePasses(cfg: Config, req: Request) {
    req.origin == "" || Cors.OriginAllowed(cfg.hosts, req.origin)
  }

  /** `httpHandler`: the origin gate, then dispatch by verb and path. */
  function Handle(cfg: Config, req: Request, svc: Services): (r: Response)
    ensures !GatePasses(cfg, req) ==> r == HttpError("Origin not registered", StatusForbidden)
    ensures r.dispatched.Some? ==> GatePasses(cfg, req) && req.verb in {"GET", "HEAD", "POST"}
    ensures GatePasses(cfg, req) && req.verb == "OPTIONS" ==> r == Response(StatusNoContent, NoBody, None)
    ensures GatePasses(cfg, req) && req.verb !in Verbs ==> r.status == StatusNotImplemented && r.dispatched == None
  {
    if !GatePasses(cfg, req) then HttpError("Origin not registered", StatusForbidden)
    else
      match RouteOf(req.verb, req.path, cfg.prefix)
      case Simple(reply) => SimpleHandler(cfg, req, svc, reply)
      case JsonRpc => RpcHandler(req, svc)
      case Postgrest => PostgrestHandler(cfg, req, svc)
      case Preflight => Response(StatusNoContent, NoBody, None)
      case Unsupported => HttpError("Unsupported request method: " + req.verb, StatusNotImplemented)
  }
}

=== FILE: model.dfy ===
/** The records the handler passes around: argument definitions, registry
    entries, the call envelope handed to the executor, decoded JSON argument
    values and the executor's reply. */
module Model {
  import opened Wrappers
  import opened Strings

  newtype int32 = x: int | -0x8000_0000 <= x < 0x8000_0000

  /** One declared argument of a stored routine (`ArgDef`). `default` is
      the nullable `Default *string`. */
  datatype ArgDef = ArgDef(
    id: int32,
    name: string,
    typ: string,
    default: Option<string>,
    defIsNull: bool)

  /** The marker that flags an array-typed argument. */
  const ArrayMarker: string := "[]"

  predicate IsArray(a: ArgDef) {
    HasSuffix(a.typ, ArrayMarker)
  }

  /** An argument the caller must supply: no default and not null-defaulted. */
  predicate Required(a: ArgDef) {
    !a.defIsNull && a.default.None?
  }

  /** A registry entry: the routine an exposed method name stands for. */
  datatype FuncDef = FuncDef(nsp: string, proc: string)

  /** A decoded JSON argument value: an array of strings, or any other value
      as Go's decoder leaves it (a string's contents, a number after its
      conversion to `float64`, and so on), written out as text. */
  datatype Json = Scalar(decoded: string) | Seq(items: seq<string>)

  /** What the envelope holds for one argument:
      `Str` a Go `*string` (query values and encoded arrays),
      `Raw` a decoded JSON value passed through as `interface{}`,
      `ReflectHandle` a `reflect.Value` wrapper, which carries no exported
      field and so is encoded as an empty JSON object whatever it wraps. */
  datatype ArgValue = Str(s: string) | Raw(value: Json) | ReflectHandle

  /** The call envelope (`CallDef`): namespace, procedure and arguments. */
  datatype CallDef = CallDef(nsp: string, proc: string, arg: map<string, ArgValue>)

  /** The executor's reply (`workman.Result`). */
  datatype DispatchResult = DispatchResult(success: bool, result: Option<string>, error: string)
}

=== FILE: properties.dfy ===
/** What the pipeline promises, adapter by adapter: the status and reply
    shape for each outcome, and that the executor is called (the response's
    `dispatched` envelope) exactly when the method resolves and no required
    argument is missing. */
module HandlerProperties {
  import opened Wrappers
  import opened Strings
  import opened Model
  import Cors
  import opened Routing
  import opened Coercion
  import opened Handler

  /** Resolution of `name` gives the routine `fd` with definitions `defs`. */
  predicate Resolves(svc: Services, name: string, fd: FuncDef, defs: seq<ArgDef>) {
    Resolve(svc, name) == Success((fd, defs))
  }

  /** The name is unknown to the registry or its definitions fail to load. */
  predicate Unresolved(svc: Services, name: string) {
    Resolve(svc, name).Failure?
  }

  // ---------------------------------------------------------------------------
  // Gate and routing

  /** A request whose origin the host list does not admit is refused with 403
      whatever the verb and whatever the services hold. */
  lemma ForbiddenOrigin(cfg: Config, req: Request, svc: Services)
    requires req.origin != ""
    requires Cors.Wildcard !in cfg.hosts && req.origin !in cfg.hosts
    ensures Handle(cfg, req, svc) == HttpError("Origin not registered", StatusForbidden)
  {
  }

  /** With an empty host list every request carrying an origin is refused. */
  lemma EmptyHostListRefusesOrigins(cfg: Config, req: Request, svc: Services)
    requires |cfg.hosts| == 0 && req.origin != ""
    ensures Handle(cfg, req, svc).status == StatusForbidden
  {
  }

  /** Past the gate, the verb and path decide the handler and so the
      possible statuses; HEAD never writes a reply body beyond the not-found
      page. */
  lemma VerbTable(cfg: Config, req: Request, svc: Services)
    requires GatePasses(cfg, req)
    ensures var r := Handle(cfg, req, svc);
            && (req.verb == "OPTIONS" ==> r == Response(StatusNoContent, NoBody, None))
            && (req.verb !in Verbs ==> r.status == StatusNotImplemented && r.body.PlainText?)
            && (req.verb == "GET" ==> (r.status == StatusOK && r.body.Envelope?) || r == NotFoundPage)
            && (req.verb == "HEAD" ==> (r.status == StatusOK && r.body == NoBody) || r == NotFoundPage)
            && (req.verb == "POST" && req.path == cfg.prefix ==> r.body.Rpc? || r.status == StatusBadRequest)
            && (req.verb == "POST" && req.path != cfg.prefix ==> r.status in {StatusOK, StatusBadRequest, StatusNotFound})
  {
  }

  /** HEAD runs the whole pipeline, the executor included when the
      arguments are complete, but answers 200 with no body once the method
      resolves, whatever the executor replies. */
  lemma HeadWritesNothing(cfg: Config, req: Request, svc: Services, fd: FuncDef, defs: seq<ArgDef>)
    requires GatePasses(cfg, req) && req.verb == "HEAD"
    requires Resolves(svc, MethodName(req.path, cfg.prefix), fd, defs)
    ensures Handle(cfg, req, svc) ==
              Response(StatusOK, NoBody,
                if MissingNames(defs, QuerySupplied(req.query)) == [] then Some(CoerceQuery(defs, req.query, fd).call)
                else None)
  {
  }

  // ---------------------------------------------------------------------------
  // The query-string adapter

  /** GET and HEAD outcomes: 404 for an unknown method, otherwise 200 with
      either the missing-parameter failure (nothing dispatched) or the
      executor's reply to the coerced envelope, which is dispatched; HEAD
      writes no body in either case. */
  lemma SimpleOutcomes(cfg: Config, req: Request, svc: Services, reply: bool, fd: FuncDef, defs: seq<ArgDef>)
    ensures Unresolved(svc, MethodName(req.path, cfg.prefix)) ==>
              SimpleHandler(cfg, req, svc, reply) == NotFoundPage
    ensures Resolves(svc, MethodName(req.path, cfg.prefix), fd, defs) ==>
              var missing := MissingNames(defs, QuerySupplied(req.query));
              var c := CoerceQuery(defs, req.query, fd).call;
              SimpleHandler(cfg, req, svc, reply) ==
                if missing != [] then
                  Response(StatusOK, if reply then Envelope(DispatchResult(false, None, MissingMessage(missing))) else NoBody, None)
                else
                  Response(StatusOK, if reply then Envelope(svc.exec(c)) else NoBody, Some(c))
  {
  }

  // ---------------------------------------------------------------------------
  // The JSON-RPC adapter

  /** An undecodable body is refused with 400 before the registry is
      consulted. */
  lemma RpcUndecodable(req: Request, svc: Services)
    requires svc.decodeRpc(req.body).Failure?
    ensures RpcHandler(req, svc) == HttpError("json parse error: " + svc.decodeRpc(req.body).error, StatusBadRequest)
  {
  }

  /** JSON-RPC outcomes: every reply echoes the request's `id` and `jsonrpc`;
      -32601 with 404 for an unknown method, -32602 with 200 and the missing
      names (no dispatch), -32603 with 200 for a failed call, and the
      executor's result otherwise. */
  lemma RpcOutcomes(req: Request, svc: Services, call: RpcCall, fd: FuncDef, defs: seq<ArgDef>)
    requires svc.decodeRpc(req.body) == Success(call)
    ensures var r := RpcHandler(req, svc);
            r.body.Rpc? && r.body.id == call.id && r.body.version == call.version
    ensures call.methodName !in svc.funcs ==>
              RpcHandler(req, svc) == Response(StatusNotFound,
                Rpc(call.id, call.version, RpcError(MethodNotFound, "Method not found", Text("no method " + call.methodName))), None)
    ensures Unresolved(svc, call.methodName) ==>
              var r := RpcHandler(req, svc);
              && r.status == StatusNotFound
              && r.body.outcome == RpcError(MethodNotFound, "Method not found", Text(Resolve(svc, call.methodName).error))
              && r.dispatched == None
    ensures Resolves(svc, call.methodName, fd, defs) ==>
              var missing := MissingNames(defs, call.params.Keys);
              var c := FetchArgs(defs, call.params, fd).call;
              var res := svc.exec(c);
              RpcHandler(req, svc) ==
                if missing != [] then
                  Response(StatusOK, Rpc(call.id, call.version,
                    RpcError(InvalidParams, "Required parameter(s) not found", Names(missing))), None)
                else if res.success then
                  Response(StatusOK, Rpc(call.id, call.version, RpcResult(res.result)), Some(c))
                else
                  Response(StatusOK, Rpc(call.id, call.version,
                    RpcError(InternalError, "Internal Error", Text(res.error))), Some(c))
  {
  }

  // ---------------------------------------------------------------------------
  // The PostgREST adapter

  /** PostgREST outcomes: 404 for an unknown method, checked before the body
      is looked at; then 400 for an empty or undecodable body, 400 with code
      42883 and the comma-joined missing names (no dispatch), 400 for a
      failed call, and 200 with the raw result otherwise. */
  lemma PostgrestOutcomes(cfg: Config, req: Request, svc: Services, fd: FuncDef, defs: seq<ArgDef>, params: map<string, Json>)
    ensures Unresolved(svc, MethodName(req.path, cfg.prefix)) ==>
              PostgrestHandler(cfg, req, svc) == NotFoundPage
    ensures Resolves(svc, MethodName(req.path, cfg.prefix), fd, defs) && req.body == "" ==>
              PostgrestHandler(cfg, req, svc) == Response(StatusBadRequest, PgError(EmptyPayloadMessage, "", NoDetail), None)
    ensures Resolves(svc, MethodName(req.path, cfg.prefix), fd, defs) && req.body != ""
            && svc.decodeObject(req.body).Failure? ==>
              PostgrestHandler(cfg, req, svc) == Response(StatusBadRequest,
                     PgError("Cannot parse request payload", "", Text("json parse error: " + svc.decodeObject(req.body).error)),
                     None)
    ensures Resolves(svc, MethodName(req.path, cfg.prefix), fd, defs) && req.body != ""
            && svc.decodeObject(req.body) == Success(params) ==>
              var missing := MissingNames(defs, params.Keys);
              var c := FetchArgs(defs, params, fd).call;
              var res := svc.exec(c);
              PostgrestHandler(cfg, req, svc) ==
                if missing != [] then
                  Response(StatusBadRequest, PgError("Required parameter(s) not found", UndefinedFunction, Text(Join(missing, ", "))), None)
                else if res.success then
                  Response(StatusOK, RawResult(res.result), Some(c))
                else
                  Response(StatusBadRequest, PgError("Method call error", "", Text(res.error)), Some(c))
  {
  }

  // ---------------------------------------------------------------------------
  // Dispatch exactly when the arguments are complete

  /** When the method is unknown, its definitions do not load, the body is
      unusable or a required argument is missing, no adapter calls the
      executor. */
  lemma MissingMeansNoDispatch(cfg: Config, req: Request, svc: Services, reply: bool,
                               fd: FuncDef, defs: seq<ArgDef>, params: map<string, Json>, call: RpcCall)
    ensures Unresolved(svc, MethodName(req.path, cfg.prefix)) ==>
              SimpleHandler(cfg, req, svc, reply).dispatched == None
              && PostgrestHandler(cfg, req, svc).dispatched == None
    ensures Resolves(svc, MethodName(req.path, cfg.prefix), fd, defs)
            && MissingNames(defs, QuerySupplied(req.query)) != [] ==>
              SimpleHandler(cfg, req, svc, reply).dispatched == None
    ensures (req.body == "" || svc.decodeObject(req.body).Failure?) ==>
              PostgrestHandler(cfg, req, svc).dispatched == None
    ensures Resolves(svc, MethodName(req.path, cfg.prefix), fd, defs)
            && svc.decodeObject(req.body) == Success(params) && MissingNames(defs, params.Keys) != [] ==>
              PostgrestHandler(cfg, req, svc).dispatched == None
    ensures svc.decodeRpc(req.body).Failure? ==> RpcHandler(req, svc).dispatched == None
    ensures svc.decodeRpc(req.body) == Success(call) && Unresolved(svc, call.methodName) ==>
              RpcHandler(req, svc).dispatched == None
    ensures svc.decodeRpc(req.body) == Success(call) && Resolves(svc, call.methodName, fd, defs)
            && MissingNames(defs, call.params.Keys) != [] ==>
              RpcHandler(req, svc).dispatched == None
  {
    SimpleOutcomes(cfg, req, svc, reply, fd, defs);
    PostgrestOutcomes(cfg, req, svc, fd, defs, params);
    if svc.decodeRpc(req.body) == Success(call) {
      RpcOutcomes(req, svc, call, fd, defs);
    }
  }

  /** The converse: once the method resolves and nothing required is
      missing, each adapter dispatches exactly the envelope its coercion
      loop built, HEAD included. */
  lemma CompleteMeansDispatch(cfg: Config, req: Request, svc: Services, reply: bool,
                              fd: FuncDef, defs: seq<ArgDef>, params: map<string, Json>, call: RpcCall)
    ensures Resolves(svc, MethodName(req.path, cfg.prefix), fd, defs)
            && MissingNames(defs, QuerySupplied(req.query)) == [] ==>
              SimpleHandler(cfg, req, svc, reply).dispatched == Some(CoerceQuery(defs, req.query, fd).call)
    ensures Resolves(svc, MethodName(req.path, cfg.prefix), fd, defs) && req.body != ""
            && svc.decodeObject(req.body) == Success(params) && MissingNames(defs, params.Keys) == [] ==>
              PostgrestHandler(cfg, req, svc).dispatched == Some(FetchArgs(defs, params, fd).call)
    ensures svc.decodeRpc(req.body) == Success(call) && Resolves(svc, call.methodName, fd, defs)
            && MissingNames(defs, call.params.Keys) == [] ==>
              RpcHandler(req, svc).dispatched == Some(FetchArgs(defs, call.params, fd).call)
  {
    SimpleOutcomes(cfg, req, svc, reply, fd, defs);
    PostgrestOutcomes(cfg, req, svc, fd, defs, params);
    if svc.decodeRpc(req.body) == Success(call) {
      RpcOutcomes(req, svc, call, fd, defs);
    }
  }

  /** A request that dispatches nothing gets the same response whatever the
      executor would reply: the executor's answer reaches the client only
      through a dispatched envelope. */
  lemma UndispatchedIgnoresExecutor(cfg: Config, req: Request, svc: Services, exec': CallDef -> DispatchResult)
    requires Handle(cfg, req, svc).dispatched == None
    ensures Handle(cfg, req, svc.(exec := exec')) == Handle(cfg, req, svc)
  {
  }

  // ---------------------------------------------------------------------------
  // An end-to-end example: `echo` with one required text argument `msg`

  const EchoDef: FuncDef := FuncDef("public", "echo")
  const MsgArg: ArgDef := ArgDef(1, "msg", "text", None, false)

  /** A routine that answers with its `msg` argument. */
  function Echo(c: CallDef): DispatchResult
  {
    if "msg" !in c.arg then DispatchResult(false, None, "no msg")
    else
      match c.arg["msg"]
      case Str(s) => DispatchResult(true, Some(s), "")
      case Raw(Scalar(s)) => DispatchResult(true, Some(s), "")
      case _ => DispatchResult(false, None, "msg is not text")
  }

  function EchoServices(): Services
  {
    Services(
      map["echo" := EchoDef],
      (fd: FuncDef) => if fd == EchoDef then Success([MsgArg]) else Failure("no such routine"),
      Echo,
      (body: string) => Failure("not used"),
      (body: string) => Failure("not used"))
  }

  function EchoConfig(prefix: string): Config
  {
    Config(prefix, [], true)
  }

  /** The query `msg=hi` supplies `echo`'s one argument, coerced to the
      text "hi" and nothing else. */
  lemma EchoQueryEnvelope()
    ensures MissingNames([MsgArg], QuerySupplied(map["msg" := ["hi"]])) == []
    ensures CoerceQuery([MsgArg], map["msg" := ["hi"]], EchoDef).call == CallDef("public", "echo", map["msg" := Str("hi")])
  {
    var form := map["msg" := ["hi"]];
    assert QuerySupplied(form) == {"msg"};
    var c := CoerceQuery([MsgArg], form, EchoDef).call;
    assert c.arg["msg"] == Str("hi") by {
      assert LastOf([MsgArg], 0);
      assert !IsArray(MsgArg);
    }
    assert c.arg.Keys == {"msg"} by {
      assert Declared([MsgArg], "msg");
    }
  }

  /** `GET P/echo?msg=hi` dispatches `echo` with `msg` = "hi" alone and
      answers 200 with the routine's result. */
  lemma EchoOverGet(prefix: string)
    ensures Handle(EchoConfig(prefix), Request("GET", prefix + "echo", "", map["msg" := ["hi"]], ""), EchoServices())
            == Response(StatusOK, Envelope(DispatchResult(true, Some("hi"), "")),
                 Some(CallDef("public", "echo", map["msg" := Str("hi")])))
  {
    var req := Request("GET", prefix + "echo", "", map["msg" := ["hi"]], "");
    var svc := EchoServices();
    assert Handle(EchoConfig(prefix), req, svc) == SimpleHandler(EchoConfig(prefix), req, svc, true);
    assert MethodName(req.path, prefix) == "echo" by {
      MethodNameRoundTrip(prefix, "echo");
    }
    assert Resolves(svc, "echo", EchoDef, [MsgArg]);
    SimpleOutcomes(EchoConfig(prefix), req, svc, true, EchoDef, [MsgArg]);
    EchoQueryEnvelope();
  }

  /** The failure text for a missing `msg`. */
  lemma MsgMissingMessage()
    ensures MissingMessage(["msg"]) == "Required parameter(s) [msg] not found"
  {
    assert Join(["msg"], " ") == "msg";
  }

  /** `GET P/echo.json` without `msg` answers 200 with
      `Required parameter(s) [msg] not found`, the routine not called. */
  lemma EchoMissingOverGet(prefix: string)
    ensures Handle(EchoConfig(prefix), Request("GET", prefix + "echo" + JsonSuffix, "", map[], ""), EchoServices())
            == Response(StatusOK, Envelope(DispatchResult(false, None, "Required parameter(s) [msg] not found")), None)
  {
    var req := Request("GET", prefix + "echo" + JsonSuffix, "", map[], "");
    var svc := EchoServices();
    assert Handle(EchoConfig(prefix), req, svc) == SimpleHandler(EchoConfig(prefix), req, svc, true);
    assert MethodName(req.path, prefix) == "echo" by {
      MethodNameRoundTrip(prefix, "echo");
    }
    assert Resolves(svc, "echo", EchoDef, [MsgArg]);
    SimpleOutcomes(EchoConfig(prefix), req, svc, true, EchoDef, [MsgArg]);
    assert MissingNames([MsgArg], QuerySupplied(req.query)) == ["msg"] by {
      assert QuerySupplied(req.query) == {};
    }
    MsgMissingMessage();
  }

  /** `POST P/echo` with an empty body answers 400 with the PostgREST
      empty-payload error. */
  lemma EchoEmptyBodyOverPostgrest(prefix: string)
    ensures Handle(EchoConfig(prefix), Request("POST", prefix + "echo", "", map[], ""), EchoServices())
            == Response(StatusBadRequest, PgError(EmptyPayloadMessage, "", NoDetail), None)
  {
    var req := Request("POST", prefix + "echo", "", map[], "");
    var svc := EchoServices();
    assert req.path != prefix by {
      assert |req.path| == |prefix| + 4;
    }
    assert Handle(EchoConfig(prefix), req, svc) == PostgrestHandler(EchoConfig(prefix), req, svc);
    assert MethodName(req.path, prefix) == "echo" by {
      MethodNameRoundTrip(prefix, "echo");
    }
    PostgrestOutcomes(EchoConfig(prefix), req, svc, EchoDef, [MsgArg], map[]);
  }

  /** `POST P` carrying a JSON-RPC call of `echo` with id 7 and `msg` = "hi"
      dispatches `echo` with that value and answers 200 with id 7, version
      2.0 and the routine's result. */
  lemma EchoOverRpc(prefix: string, body: string)
    ensures var call := RpcCall("echo", "2.0", 7, map["msg" := Scalar("hi")]);
            var svc := EchoServices().(decodeRpc := (b: string) => Success(call));
            Handle(EchoConfig(prefix), Request("POST", prefix, "", map[], body), svc)
            == Response(StatusOK, Rpc(7, "2.0", RpcResult(Some("hi"))),
                 Some(CallDef("public", "echo", map["msg" := Raw(Scalar("hi"))])))
  {
    var call := RpcCall("echo", "2.0", 7, map["msg" := Scalar("hi")]);
    var svc := EchoServices().(decodeRpc := (b: string) => Success(call));
    var req := Request("POST", prefix, "", map[], body);
    assert Handle(EchoConfig(prefix), req, svc) == RpcHandler(req, svc);
    assert svc.decodeRpc(req.body) == Success(call);
    assert Resolves(svc, "echo", EchoDef, [MsgArg]);
    RpcOutcomes(req, svc, call, EchoDef, [MsgArg]);
    assert MissingNames([MsgArg], call.params.Keys) == [];
    var c := FetchArgs([MsgArg], call.params, EchoDef).call;
    assert c.arg["msg"] == Raw(Scalar("hi")) by {
      assert LastOf([MsgArg], 0);
      assert !IsArray(MsgArg);
    }
    assert c.arg.Keys == {"msg"} by {
      FetchArgsKeysAndMissing([MsgArg], call.params, EchoDef);
      assert Declared([MsgArg], "msg");
    }
    assert c.arg == map["msg" := Raw(Scalar("hi"))];
    assert svc.exec(c) == DispatchResult(true, Some("hi"), "");
  }
}

=== FILE: routing.dfy ===
/** Dispatch by HTTP verb and path, method-name extraction from the path and
    the registry lookup (handler.go `httpHandler`, `FunctionDef`). */
module Routing {
  import opened Wrappers
  import opened Strings
  import opened Model

  /** Where `httpHandler` sends a request. `Simple(reply)` is the query-string
      handler, writing a body only when `reply` holds (GET, not HEAD). */
  datatype Route = Simple(reply: bool) | JsonRpc | Postgrest | Preflight | Unsupported

  const Verbs: set<string> := {"GET", "HEAD", "POST", "OPTIONS"}

  /** The if-chain of `httpHandler`, a total function of verb and path. */
  function RouteOf(verb: string, path: string, prefix: string): (r: Route)
    ensures r == Simple(true) <==> verb == "GET"
    ensures r == Simple(false) <==> verb == "HEAD"
    ensures r == JsonRpc <==> verb == "POST" && path == prefix
    ensures r == Postgrest <==> verb == "POST" && path != prefix
    ensures r == Preflight <==> verb == "OPTIONS"
    ensures r == Unsupported <==> verb !in Verbs
  {
    if verb == "GET" then Simple(true)
    else if verb == "HEAD" then Simple(false)
    else if verb == "POST" && path == prefix then JsonRpc
    else if verb == "POST" then Postgrest
    else if verb == "OPTIONS" then Preflight
    else Unsupported
  }

  /** The URL suffix a caller may append to the method name. */
  const JsonSuffix: string := ".json"

  /** The path with the prefix trimmed and then one `.json` trimmed. */
  function MethodName(path: string, prefix: string): (r: string)
    ensures HasPrefix(path, prefix) ==>
              r + (if HasSuffix(path[|prefix|..], JsonSuffix) then JsonSuffix else "") == path[|prefix|..]
    ensures !HasPrefix(path, prefix) ==>
              r + (if HasSuffix(path, JsonSuffix) then JsonSuffix else "") == path
  {
    TrimSuffix(TrimPrefix(path, prefix), JsonSuffix)
  }

  /** `MethodName` inverts the URL forms a client builds for method `m`:
      `prefix + m`, and `prefix + m + ".json"`. */
  lemma MethodNameRoundTrip(prefix: string, m: string)
    ensures !HasSuffix(m, JsonSuffix) ==> MethodName(prefix + m, prefix) == m
    ensures MethodName(prefix + m + JsonSuffix, prefix) == m
  {
    assert (prefix + m)[..|prefix|] == prefix;
    assert (prefix + m + JsonSuffix)[..|prefix|] == prefix;
    assert (prefix + m + JsonSuffix)[|prefix|..] == m + JsonSuffix;
    assert (m + JsonSuffix)[|m + JsonSuffix| - |JsonSuffix|..] == JsonSuffix;
  }

  /** Only one `.json` is trimmed: `m.json.json` names the method `m.json`. */
  lemma MethodNameTrimsOnce(prefix: string, m: string)
    ensures MethodName(prefix + m + JsonSuffix + JsonSuffix, prefix) == m + JsonSuffix
  {
    MethodNameRoundTrip(prefix, m + JsonSuffix);
    assert prefix + m + JsonSuffix + JsonSuffix == prefix + (m + JsonSuffix) + JsonSuffix;
  }

  /** A path outside the prefix is used whole, less one `.json`. */
  lemma MethodNameOutsidePrefix(path: string, prefix: string)
    requires !HasPrefix(path, prefix)
    ensures MethodName(path, prefix) + (if HasSuffix(path, JsonSuffix) then JsonSuffix else "") == path
  {
  }

  /** Registry lookup: the entry for `name`, or the `no method` error. */
  function FunctionDef(funcs: map<string, FuncDef>, name: string): (r: Result<FuncDef, string>)
    ensures r.Success? <==> name in funcs
    ensures r.Success? ==> r.value == funcs[name]
    ensures r.Failure? ==> r.error == "no method " + name
  {
    if name in funcs then Success(funcs[name])
    else Failure("no method " + name)
  }
}

=== FILE: strings.dfy ===
/** The few functions of Go's `strings` package the handler uses, over
    `seq<char>`, plus `Split`, the inverse of `Join` used to state what the
    array encoding preserves. */
module Strings {

  predicate HasPrefix(s: string, prefix: string) {
    |prefix| <= |s| && s[..|prefix|] == prefix
  }

  predicate HasSuffix(s: string, suffix: string) {
    |suffix| <= |s| && s[|s| - |suffix|..] == suffix
  }

  /** `strings.TrimPrefix`: drops the prefix once when it is there. */
  function TrimPrefix(s: string, prefix: string): (r: string)
    ensures HasPrefix(s, prefix) ==> prefix + r == s
    ensures !HasPrefix(s, prefix) ==> r == s
  {
    if HasPrefix(s, prefix) then s[|prefix|..] else s
  }

  /** `strings.TrimSuffix`: drops the suffix once when it is there. */
  function TrimSuffix(s: string, suffix: string): (r: string)
    ensures HasSuffix(s, suffix) ==> r + suffix == s
    ensures !HasSuffix(s, suffix) ==> r == s
  {
    if HasSuffix(s, suffix) then s[..|s| - |suffix|] else s
  }

  /** `strings.Join`: the elements with `sep` between neighbours. */
  function Join(xs: seq<string>, sep: string): string
  {
    if |xs| == 0 then ""
    else if |xs| == 1 then xs[0]
    else xs[0] + sep + Join(xs[1..], sep)
  }

  /** Cuts `s` at every occurrence of `c`; always at least one piece. */
  function Split(s: string, c: char): (r: seq<string>)
    ensures |r| >= 1
    decreases |s|
  {
    if |s| == 0 then [""]
    else
      var rest := Split(s[1..], c);
      if s[0] == c then [""] + rest
      else [[s[0]] + rest[0]] + rest[1..]
  }

  /** A piece without the separator comes back whole. */
  lemma {:induction false} SplitWithout(x: string, c: char)
    requires c !in x
    ensures Split(x, c) == [x]
    decreases |x|
  {
    if |x| > 0 {
      SplitWithout(x[1..], c);
      assert [x[0]] + x[1..] == x;
    }
  }

  /** Every element cut at `c`, the pieces concatenated in order. */
  function SplitAll(xs: seq<string>, c: char): seq<string>
  {
    if |xs| == 0 then [] else Split(xs[0], c) + SplitAll(xs[1..], c)
  }

  /** A separator between two strings separates their pieces, whatever the
      first string holds. */
  lemma {:induction false} SplitAround(x: string, c: char, rest: string)
    ensures Split(x + [c] + rest, c) == Split(x, c) + Split(rest, c)
    decreases |x|
  {
    var s := x + [c] + rest;
    if |x| == 0 {
      assert s == [c] + rest;
      assert s[1..] == rest;
    } else {
      assert s[0] == x[0];
      assert s[1..] == x[1..] + [c] + rest;
      SplitAround(x[1..], c, rest);
    }
  }

  /** Splitting a join at its own separator cuts every element as well: the
      separators inside elements are not escaped. */
  lemma {:induction false} SplitJoinAll(xs: seq<string>, c: char)
    requires |xs| > 0
    ensures Split(Join(xs, [c]), c) == SplitAll(xs, c)
    decreases |xs|
  {
    if |xs| == 1 {
      assert SplitAll(xs[1..], c) == [];
    } else {
      SplitJoinAll(xs[1..], c);
      SplitAround(xs[0], c, Join(xs[1..], [c]));
    }
  }

  /** Elements without the separator are cut into themselves. */
  lemma {:induction false} SplitAllWithout(xs: seq<string>, c: char)
    requires forall i :: 0 <= i < |xs| ==> c !in xs[i]
    ensures SplitAll(xs, c) == xs
    decreases |xs|
  {
    if |xs| > 0 {
      SplitWithout(xs[0], c);
      SplitAllWithout(xs[1..], c);
      assert [xs[0]] + xs[1..] == xs;
    }
  }

  /** `Split` undoes `Join` when no element holds the separator. */
  lemma {:induction false} SplitJoin(xs: seq<string>, c: char)
    requires |xs| > 0
    requires forall i :: 0 <= i < |xs| ==> c !in xs[i]
    ensures Split(Join(xs, [c]), c) == xs
  {
    SplitJoinAll(xs, c);
    SplitAllWithout(xs, c);
  }
}

=== FILE: wrappers.dfy ===
/** Optional values and results with an error, used wherever the Go code
    returns a nil pointer or an `error`. */
module Wrappers {

  datatype Option<+T> = None | Some(value: T)

  datatype Result<+T, +E> = Success(value: T) | Failure(error: E)
}
